=== FILE: README.md ===
# deeplink-cpp, modelled in Dafny

`deeplink-cpp` is a header-only C++ library. It makes a Windows desktop
application the handler of a custom URL scheme and keeps it single-instance.
The first process to start becomes the **primary**: it listens on a named
pipe derived from the scheme. A later launch, for example one started by the
shell for a `myapp://…` link, finds the pipe occupied. It becomes a
**secondary**: it forwards its last command-line argument to the primary
through the pipe and tells its caller to exit.

This project models the deterministic logic of `include/deeplink.hpp`:

- `NamedPipe`: `ipc::NamedPipeIpcMechanism` — the pipe name, the probe, the send, and the stop-flag lifecycle of `startServer` and `stopServer`.
- `Listener`: one round of `serverLoop` and the loop over rounds. A round is create, connect, a single read into a zeroed 2048-byte buffer, then the callback with the NUL-terminated contents.
- `Coordinator`: `DeepLink::runOrForward`, the self-delivery of the launch link, and teardown by both destructors.
- `Registry`: the registry strings, the seven calls of `registerScheme` and the status rule of `unregisterScheme`.
- `CText`: `std::string(const char*)` and `rfind(prefix, 0)`. `Basics` holds the shared types.
- `Scenarios`: three example launches, using the scheme `myapp` from `example/windows.cpp`.

Each operation is a pure function. It returns the new state and a trace of
effects: `Sent`, `ServerStarted`, `WakeUp`, `Joined`, `Invoked`. Properties
are stated over these traces by counting effects by kind.

Inputs that stand for the operating system:

- `WaitAnswer`: the result of `WaitNamedPipeW` and `GetLastError`.
- `Round`: the answers of `CreateNamedPipeW`, `ConnectNamedPipe` and `ReadFile` for one loop round.
- `os`: a function giving the status of each registry call.
- `Encoder`: the UTF-8 conversion `toString`, passed as a parameter.
- The executable path.

`wchar_t` is a 16-bit code unit (`wchar`). A `std::string` is a sequence of
`byte`s.

Four behaviours of the code worth knowing:

- `startServer` clears the stop flag each time it runs. `StartAfterStopRearms` shows a stopped mechanism can be started and stopped again.
- The probe treats every `WaitNamedPipeW` failure except `ERROR_PIPE_BUSY` (231) as "no server", a timeout (`ERROR_SEM_TIMEOUT`) included.
- The listener makes one `ReadFile` of at most 2047 bytes per connection. The callback receives the bytes before the first NUL, and an empty message reaches no callback.
- A secondary's teardown still runs `stopServer` on a mechanism that never started. That performs the wake-up open on the scheme's pipe, which is the primary's pipe. `SecondaryLifetime` records this effect and its pipe. `SecondaryWakeUpDeliversNothing` shows it writes nothing, so it cannot trigger a callback.

## Model

| member | source | states |
|---|---|---|
| NamedPipe.PipeNameRoundTrip | include/deeplink.hpp:38 | the pipe name is `\\.\pipe\` followed by the identifier; the identifier can be read back, and a local pipe name belongs to exactly that identifier |
| NamedPipe.PipeName | include/deeplink.hpp:38 | the pipe name is `\\.\pipe\` followed by exactly the identifier |
| NamedPipe.PipeNameInjective | include/deeplink.hpp:38 | two identifiers give the same pipe-name string exactly when they are equal |
| NamedPipe.NewMechanism | include/deeplink.hpp:38-40 | a new mechanism has the scheme's pipe name, an empty callback, no thread and a clear stop flag |
| NamedPipe.IsServerRunning | include/deeplink.hpp:47-50 | the probe reports a server when the wait succeeds, and after a failure exactly when the error is `ERROR_PIPE_BUSY` |
| NamedPipe.ProbeFailuresReadAsNoServer | include/deeplink.hpp:47-50 | after a failed wait only `ERROR_PIPE_BUSY` reads as a server; a timeout (`ERROR_SEM_TIMEOUT`, 121) or a missing pipe (`ERROR_FILE_NOT_FOUND`, 2) reads as none |
| NamedPipe.SendMessage | include/deeplink.hpp:52-63 | a send is one attempt on this mechanism's pipe, carrying the whole message |
| NamedPipe.StartServer | include/deeplink.hpp:65-70 | a start stores the callback, clears the stop flag and launches one listener; over a still-joinable thread it ends the process (`std::terminate`) |
| NamedPipe.StopServer | include/deeplink.hpp:72-83 | only the call that finds the flag clear acts: first a wake-up open of the mechanism's own pipe, then a join exactly when the thread is joinable; a call that finds it set changes nothing |
| NamedPipe.StopServerIdempotent | include/deeplink.hpp:72-83 | a second stop leaves the state as it is and has no effect |
| NamedPipe.StartAfterStopRearms | include/deeplink.hpp:65-70 | after a stop, starting again re-arms the flag so the next stop joins again |
| NamedPipe.AtMostOneListener | include/deeplink.hpp:65-83 | across any sequence of starts and stops, each launched listener is either joined or is the single one still joinable; reachable states stay reachable |
| CText.CutAtNul | include/deeplink.hpp:106 | the string built from a buffer is a NUL-free prefix of it that stops at the first NUL or at the end |
| CText.CutAtNulUnique | include/deeplink.hpp:106 | the string built from a buffer is the unique NUL-free prefix that ends at a NUL or at the end |
| CText.StrLen | include/deeplink.hpp:106 | building `std::string` from a NUL-terminated buffer scans to the first NUL and copies the bytes before it |
| CText.RFind | include/deeplink.hpp:225 | `rfind(p, pos)` answers the last occurrence of `p` at or before `pos`, and `npos` only when there is none |
| CText.RFindAtZeroIsStartsWith | include/deeplink.hpp:225 | `rfind(p, 0) == 0` holds exactly when the string starts with `p` |
| Listener.BytesRead | include/deeplink.hpp:102 | the read places the whole message when it fits 2047 bytes and exactly 2047 bytes otherwise; it reads at least one byte exactly when the message is non-empty |
| Listener.Filled | include/deeplink.hpp:100-104 | the 2048-byte buffer holds the bytes read followed by a NUL |
| Listener.Payload | include/deeplink.hpp:100-106 | the delivered payload is at most 2047 bytes, has no NUL, is a prefix of the client's message, and stops at a NUL or the 2047-byte limit |
| Listener.PayloadIsCutOfRead | include/deeplink.hpp:100-106 | the payload is the bytes read, cut at the first NUL |
| Listener.PayloadFaithful | include/deeplink.hpp:100-106 | the payload equals the message exactly when the message fits in 2047 bytes and holds no NUL, and is a shorter prefix of it otherwise |
| Listener.ReadPayload | include/deeplink.hpp:100-106 | filling the buffer and scanning it to the terminator yields the payload |
| Listener.Iterate | include/deeplink.hpp:90-111 | one round calls back at most once, exactly when the pipe was created, a client is attached (or `ERROR_PIPE_CONNECTED`), the stop flag is clear, the read succeeded with at least one byte, and a callback is set |
| Listener.Serve | include/deeplink.hpp:86-113 | a loop whose flag is set starts no round; it makes at most one callback per round and runs at most one round per event |
| Listener.LoopBounds | include/deeplink.hpp:86-113 | a run of the loop makes no more callbacks than rounds, and no more rounds than there were events |
| Listener.ServeDelivers | include/deeplink.hpp:97-107 | every callback the loop makes goes to the registered handler with a NUL-free payload of at most 2047 bytes |
| Listener.ServeAppend | include/deeplink.hpp:86-113 | running the loop over two event runs is running it over the first, then over the second from the flag left behind; callbacks keep connection order |
| Listener.NoCallbackAfterStop | include/deeplink.hpp:88 | once the stop flag is set between rounds, later connections produce no callback |
| Listener.FailedCreationRetests | include/deeplink.hpp:94-95 | a round whose pipe creation failed calls nothing back; the loop just tests the flag again |
| Listener.WakeUpEndsLoop | include/deeplink.hpp:97-98 | a round whose wait ended with the stop flag set delivers nothing and is the last round |
| Listener.MessageRoundTrip | include/deeplink.hpp:97-107 | a non-empty, NUL-free message of at most 2047 bytes, read without interference, reaches the callback exactly once, unchanged |
| Coordinator.NewDeepLink | include/deeplink.hpp:126-128 | a new coordinator owns a mechanism whose pipe identifies its scheme, with no callback and no listener |
| Coordinator.SetOnMessage | include/deeplink.hpp:139-142 | setting the callback changes nothing else |
| Coordinator.SelfDelivery | include/deeplink.hpp:222-227 | the primary calls back locally at most once, exactly when there are arguments, a callback is set, and the converted last argument starts with the converted scheme followed by `://`; it passes that argument |
| Coordinator.RunOrForward | include/deeplink.hpp:210-230 | with a server present: secondary, state unchanged, and the launch does exactly one send of the last argument, or nothing at all when there are no arguments. Otherwise: primary, and the launch is exactly one start using the current callback, followed by one local callback under the self-delivery rule or by nothing; no send, wake-up or join |
| Coordinator.OnlyLastArgumentMatters | include/deeplink.hpp:214-226 | two argument lists with the same last element, or both empty, give the same launch |
| Coordinator.Dispose | include/deeplink.hpp:130-134 | the `stopServer` of `~DeepLink` and then that of the mechanism's own destructor (line 44) wake the pipe at most once, opening the mechanism's pipe first, and join exactly when a listener is live |
| Coordinator.PrimaryLifetime | include/deeplink.hpp:220-229 | from construction to teardown a primary starts exactly one listener, joins it exactly once, sends nothing and calls back at most once |
| Coordinator.SecondaryLifetime | include/deeplink.hpp:212-218 | from construction to teardown a secondary starts and joins nothing and never calls back; it sends once exactly when it has arguments, and on teardown opens once the scheme's pipe, which is the primary's |
| Coordinator.SecondaryWakeUpDeliversNothing | include/deeplink.hpp:102 | a connection that writes nothing, such as a secondary's wake-up open, causes no callback |
| Coordinator.ForwardReachesPrimary | include/deeplink.hpp:212-218 | a forwarded link is sent on the pipe of the primary of the same scheme, and the primary's callback receives it once, unchanged, when it fits the buffer |
| Coordinator.EmptyArgumentNeverDelivered | include/deeplink.hpp:215 | an empty last argument is forwarded as an empty message, which never reaches a callback |
| Registry.RegistryPath | include/deeplink.hpp:157 | the scheme's key is `Software\Classes\` followed by exactly the scheme |
| Registry.UrlProtocolValue | include/deeplink.hpp:158 | the protocol value is `URL:` followed by exactly the scheme |
| Registry.CommandValue | include/deeplink.hpp:159 | the command value is the executable in double quotes followed by ` "%1"` |
| Registry.IconValue | include/deeplink.hpp:160 | the icon value is the executable followed by `,0` |
| Registry.RegisterCalls | include/deeplink.hpp:162-192 | registration makes seven calls, the first creating the scheme's key; it creates exactly the scheme's key, its `DefaultIcon` key and its `shell\open\command` key; it writes exactly four values: `URL:<scheme>` and an empty `URL Protocol` on the scheme's key, the icon value on `DefaultIcon` and the command value on `shell\open\command`; each value goes to a key an earlier call created |
| Registry.DerivedStringsRoundTrip | include/deeplink.hpp:157-160 | the scheme can be read back from the key `Software\Classes\<scheme>` and from `URL:<scheme>`; the executable from `"<exe>" "%1"` and from `<exe>,0` |
| Registry.RegistrationInsideDeletedTree | include/deeplink.hpp:157 | every key `registerScheme` creates or writes lies in the tree `unregisterScheme` deletes |
| Registry.RegistrationWritesDerivedValues | include/deeplink.hpp:168-192 | the registration writes the protocol, icon and command values, which name the scheme and the executable |
| Registry.Perform | include/deeplink.hpp:162-194 | registry calls run in order up to and including the first failing status; success means all ran and succeeded |
| Registry.RegisterScheme | include/deeplink.hpp:144-200 | registration succeeds exactly when all seven calls return `ERROR_SUCCESS`, and then made all of them; otherwise it made the calls up to and including the first failing one and reports that call's status; every key touched is under the scheme's key |
| Registry.UnregisterScheme | include/deeplink.hpp:202-208 | unregistering deletes the scheme's key; it succeeds exactly on `ERROR_SUCCESS` or `ERROR_FILE_NOT_FOUND` |
| Registry.DeleteTree | include/deeplink.hpp:205 | deleting a present tree removes it and every key below it and answers `ERROR_SUCCESS`; a missing tree leaves the registry as it is and answers `ERROR_FILE_NOT_FOUND`; no key is left without its parent |
| Registry.Unregister | include/deeplink.hpp:202-208 | unregistering removes exactly the scheme's tree from a registry whose keys all have their parents |
| Registry.UnregisterIdempotent | include/deeplink.hpp:204-206 | unregistering succeeds, and a second unregistration finds the tree missing, succeeds through `ERROR_FILE_NOT_FOUND` and changes nothing |
| Registry.UnregisterRemovesRegistration | include/deeplink.hpp:204-206 | after unregistering, no key that registration creates or writes is left |
| Scenarios.OwnLinkDeliveredLocally | include/deeplink.hpp:220-229 | a launch from `myapp://open?id=42` with no primary becomes primary and calls back once with that link, not through the pipe |
| Scenarios.LinkForwardedToPrimary | include/deeplink.hpp:212-217 | a launch from `myapp://open?id=7` with a primary running sends the link once and the primary's callback receives it once |
| Scenarios.EmptyLaunchBecomesPrimary | include/deeplink.hpp:220-229 | a launch with no arguments and no primary becomes primary with its listener running and calls nothing back |

## Left out

- The Win32 calls `WaitNamedPipeW`, `CreateFileW`, `WriteFile`, `CreateNamedPipeW`, `ConnectNamedPipe`, `ReadFile`, `DisconnectNamedPipe`, `CloseHandle` and the `Reg*` functions are foreign calls. Their answers are inputs.
- Whether the `GENERIC_READ` wake-up open connects to the inbound pipe is operating-system behaviour. The model assumes the join returns. Scheduling can also break this: if `stopServer` runs after the listener has tested the flag at line 88 but before `CreateNamedPipeW` at line 90 has created the instance, the open at line 76 finds no pipe, `ConnectNamedPipe` at line 97 waits with no client, and `join()` at line 81 does not return.
- Whether an oversize message-mode read fails with `ERROR_MORE_DATA` or succeeds is operating-system behaviour, so `ReadAnswer.ok` is a free input.
- Threads, `std::atomic` ordering and the blocking accept are concurrency. The stop flag is a plain boolean. The listener is a sequence of rounds, and the other thread appears only as `StopSet` events or a round's `stopRaised`.
- The race between one process's probe and another's first `CreateNamedPipeW` needs a multi-process operating-system model.
- `toString` (`WideCharToMultiByte`) is a parameter. Only `EmptyArgumentNeverDelivered` assumes it maps the empty string to the empty string, which its early return at line 235 does; the scenarios assume it is byte-for-byte on ASCII.
- `GetModuleFileNameW` is not modelled; the executable path is an input. Its failure path, the `MAX_PATH` limit and the exception text of `registerScheme` and `unregisterScheme` are message formatting and I/O.
- Registry.RegisterScheme: does not model the key handles the guards close on return.
- Registry.DeleteTree: models a registry that grants access; a refusal such as access denied is covered only by the status rule of `Registry.UnregisterScheme`.
- NamedPipe.PipeNameInjective: Windows compares pipe names and registry keys without regard to case, and every Win32 call receives `c_str()`, which ends at the first NUL. So `MyApp` and `myapp`, or two schemes that agree up to an embedded NUL, meet on one pipe and one registry key. The model compares names as exact strings.
- Coordinator.RunOrForward: a callback that throws during the self-delivery at line 226 makes `runOrForward` throw after the listener has started; the model has no exceptions and returns `Ok`.
- Listener.Iterate: a callback that throws at line 106 escapes the listener thread, which ends the process (`std::terminate`); the model's round simply returns.
- NamedPipe.StartServer: the `std::thread` constructor at line 69 can throw `std::system_error` after lines 67-68 have stored the callback and cleared the flag; the model has only success and `Terminate`.
- NamedPipe.SendMessage: the `(DWORD)` cast at line 60 truncates the length of a message of 4 GiB or more; the model sends the whole message.
- The `IIpcMechanism` interface: the coordinator is modelled only with its default strategy, the named-pipe mechanism.
- `example/windows.cpp` is demonstration code: command-line extraction, message boxes and console I/O.

=== FILE: basics.dfy ===
/** Value types shared by the whole model.

    The library works with two string types: `std::wstring` (UTF-16 code units,
    used for the scheme, the pipe name, registry paths and command-line
    arguments) and `std::string` (bytes, used for every message). Both are
    modelled as sequences of bounded integers so that NUL bytes, lone
    surrogates and byte values above 127 stay representable.
 */
module Basics {

  datatype Option<+T> = None | Some(value: T)

  datatype Result<+T, +E> = Ok(value: T) | Err(error: E)

  /** One `char` of a `std::string`, read as an unsigned byte. */
  newtype byte = b: int | 0 <= b < 0x100

  /** One `wchar_t` of a `std::wstring` on Windows: a UTF-16 code unit. */
  newtype wchar = c: int | 0 <= c < 0x1_0000

  type Bytes = seq<byte>

  type WString = seq<wchar>

  // ----- Win32 status codes used by more than one module -----

  const ErrorSuccess: nat := 0
  const ErrorFileNotFound: nat := 2

  /** The code units of an `L"..."` literal. Every literal of the library is
      ASCII, where the code unit is the character's code; the reduction only
      keeps the function total. */
  function Widen(s: string): (w: WString)
    ensures |w| == |s|
  {
    seq(|s|, i requires 0 <= i < |s| => (s[i] as int % 0x1_0000) as wchar)
  }

  /** The bytes of a `"..."` literal, under the same convention as `Widen`. */
  function Narrow(s: string): (b: Bytes)
    ensures |b| == |s|
  {
    seq(|s|, i requires 0 <= i < |s| => (s[i] as int % 0x100) as byte)
  }

  /** `s` begins with `p`. */
  predicate StartsWith<T(==)>(s: seq<T>, p: seq<T>) {
    |p| <= |s| && s[..|p|] == p
  }

  /** What is left of `s` after the prefix `p`, if `s` begins with `p`. */
  function StripPrefix<T(==)>(s: seq<T>, p: seq<T>): (r: Option<seq<T>>)
    ensures r.Some? <==> StartsWith(s, p)
    ensures r.Some? ==> p + r.value == s
  {
    if StartsWith(s, p) then
      assert s == s[..|p|] + s[|p|..];
      Some(s[|p|..])
    else None
  }

  /** Stripping a prefix undoes prepending it. */
  lemma StripPrefixOfConcat<T>(p: seq<T>, s: seq<T>)
    ensures StripPrefix(p + s, p) == Some(s)
  {
  }

  /** What is left of `s` before the suffix `q`, if `s` ends with `q`. */
  function StripSuffix<T(==)>(s: seq<T>, q: seq<T>): (r: Option<seq<T>>)
    ensures r.Some? <==> |q| <= |s| && s[|s| - |q|..] == q
    ensures r.Some? ==> r.value + q == s
  {
    if |q| <= |s| && s[|s| - |q|..] == q then
      assert s == s[..|s| - |q|] + s[|s| - |q|..];
      Some(s[..|s| - |q|])
    else None
  }

  /** Stripping a suffix undoes appending it. */
  lemma StripSuffixOfConcat<T>(s: seq<T>, q: seq<T>)
    ensures StripSuffix(s + q, q) == Some(s)
  {
  }
}

=== FILE: coordinator.dfy ===
/** `DeepLink` (include/deeplink.hpp): the decision between becoming the
    primary instance and forwarding to it, the self-delivery of the launch
    link, and teardown.

    `toString`, the UTF-8 conversion of a wide string, is a parameter of type
    `Encoder`. Nothing below depends on how it converts, except where a lemma
    states its assumption about the encoder explicitly.
 */
module Coordinator {
  import opened Basics
  import opened CText
  import opened NamedPipe
  import opened Listener

  /** `toString`: a wide string to the bytes of its UTF-8 form. */
  type Encoder = WString -> Bytes

  /** The `"://"` appended to the scheme to recognise the application's own links. */
  const SchemeSeparator: Bytes := Narrow("://")

  /** `m_wsScheme`, `m_fOnMessage` and the owned mechanism `*m_pIpc`. */
  datatype DeepLink = DeepLink(scheme: WString, handler: Handler, ipc: Mechanism)

  /** The constructor: the mechanism is built from the scheme itself, so the
      pipe identifies the scheme. */
  function NewDeepLink(scheme: WString): (d: DeepLink)
    ensures d.scheme == scheme && d.handler.None?
    ensures PipeId(d.ipc.pipeName) == Some(scheme)
    ensures !d.ipc.joinable && !d.ipc.stop && Valid(d.ipc)
  {
    DeepLink(scheme, None, NewMechanism(scheme))
  }

  /** `setOnMessage`: replaces the callback and nothing else. */
  function SetOnMessage(d: DeepLink, h: Handler): (d': DeepLink)
    ensures d'.handler == h && d'.scheme == d.scheme && d'.ipc == d.ipc
  {
    d.(handler := h)
  }

  /** `vecArgs.back()`. */
  function Last(args: seq<WString>): WString
    requires |args| > 0
  {
    args[|args| - 1]
  }

  /** The argument, converted, begins with the scheme followed by `://`. */
  predicate IsOwnLink(scheme: WString, arg: WString, enc: Encoder) {
    StartsWith(enc(arg), enc(scheme) + SchemeSeparator)
  }

  /** What a launch decided, the coordinator afterwards, and what it did. */
  datatype Launch = Launch(primary: bool, link: DeepLink, trace: seq<Effect>)

  /** The primary's direct delivery of its own launch link, which bypasses the
      pipe: the last argument, if there is one and a callback is set, when
      `rfind(scheme + "://", 0) == 0`. */
  function SelfDelivery(d: DeepLink, args: seq<WString>, enc: Encoder): (t: seq<Effect>)
    ensures |t| <= 1
    ensures |t| == 1 <==> |args| > 0 && d.handler.Some? && IsOwnLink(d.scheme, Last(args), enc)
    ensures |t| == 1 ==> t[0] == Invoked(d.handler.value, enc(Last(args)))
  {
    if |args| > 0 && d.handler.Some? then
      var msg := enc(Last(args));
      var prefix := enc(d.scheme) + SchemeSeparator;
      RFindAtZeroIsStartsWith(msg, prefix);
      if RFind(msg, prefix, 0) == Some(0) then [Invoked(d.handler.value, msg)] else []
    else []
  }

  /** `runOrForward`. With a server on the pipe, forward the last argument
      (if any) and stay secondary, changing nothing. Otherwise start the
      listener with the current callback, deliver an own-scheme launch link
      directly, and become primary. Starting fails only when this coordinator
      still owns a live listener. */
  function RunOrForward(d: DeepLink, probe: WaitAnswer, args: seq<WString>, enc: Encoder): (r: Result<Launch, Fault>)
    ensures IsServerRunning(probe) ==>
      && r.Ok? && !r.value.primary && r.value.link == d
      && Count(r.value.trace, StartKind) == 0 && Count(r.value.trace, CallKind) == 0
      && Count(r.value.trace, SendKind) == (if |args| == 0 then 0 else 1)
      && (|args| == 0 ==> r.value.trace == [])
      && (|args| > 0 ==> r.value.trace == [Sent(d.ipc.pipeName, enc(Last(args)))])
    ensures !IsServerRunning(probe) ==> (r.Ok? <==> !d.ipc.joinable)
    ensures !IsServerRunning(probe) && r.Ok? ==>
      var l := r.value;
      && l.primary
      && l.link.scheme == d.scheme && l.link.handler == d.handler
      && l.link.ipc.pipeName == d.ipc.pipeName && l.link.ipc.handler == d.handler
      && l.link.ipc.joinable && !l.link.ipc.stop && Valid(l.link.ipc)
      && |l.trace| >= 1 && l.trace[0] == ServerStarted(d.ipc.pipeName, d.handler)
      && Count(l.trace, StartKind) == 1 && Count(l.trace, SendKind) == 0
      && Count(l.trace, WakeKind) == 0 && Count(l.trace, JoinKind) == 0
      && Count(l.trace, CallKind) <= 1
      && |l.trace| == 1 + Count(l.trace, CallKind)
      && (Count(l.trace, CallKind) == 0 ==> l.trace == [ServerStarted(d.ipc.pipeName, d.handler)])
      && (Count(l.trace, CallKind) == 1 <==> |args| > 0 && d.handler.Some? && IsOwnLink(d.scheme, Last(args), enc))
      && (Count(l.trace, CallKind) == 1 ==> l.trace == [l.trace[0], Invoked(d.handler.value, enc(Last(args)))])
  {
    if IsServerRunning(probe) then
      Ok(Launch(false, d, if |args| == 0 then [] else SendMessage(d.ipc, enc(Last(args)))))
    else
      match StartServer(d.ipc, d.handler)
      case Err(f) => Err(f)
      case Ok(started) =>
        var local := SelfDelivery(d, args, enc);
        TraceCounts(started.trace, local);
        Ok(Launch(true, d.(ipc := started.m), started.trace + local))
  }

  /** Counting over a start followed by at most one local callback. */
  lemma TraceCounts(start: seq<Effect>, local: seq<Effect>)
    requires |start| == 1 && start[0].ServerStarted?
    requires |local| <= 1 && (|local| == 1 ==> local[0].Invoked?)
    ensures Count(start + local, StartKind) == 1 && Count(start + local, SendKind) == 0
    ensures Count(start + local, WakeKind) == 0 && Count(start + local, JoinKind) == 0
    ensures Count(start + local, CallKind) == |local|
  {
    CountAppend(start, local, StartKind);
    CountAppend(start, local, SendKind);
    CountAppend(start, local, WakeKind);
    CountAppend(start, local, JoinKind);
    CountAppend(start, local, CallKind);
    if |local| == 1 {
      assert local[1..] == [];
    }
  }

  /** Only the last argument is ever examined: two argument lists with the
      same last element (or both empty) lead to the same launch. */
  lemma OnlyLastArgumentMatters(d: DeepLink, probe: WaitAnswer, a: seq<WString>, b: seq<WString>, enc: Encoder)
    requires |a| == 0 <==> |b| == 0
    requires |a| > 0 ==> Last(a) == Last(b)
    ensures RunOrForward(d, probe, a, enc) == RunOrForward(d, probe, b, enc)
  {
  }

  /** Teardown: `~DeepLink` calls `stopServer`, then the destructor of the
      owned mechanism calls it again. Whatever the state, the pair wakes the
      pipe at most once and joins at most once. */
  function Dispose(d: DeepLink): (t: seq<Effect>)
    ensures Count(t, JoinKind) == (if d.ipc.joinable && !d.ipc.stop then 1 else 0)
    ensures Count(t, WakeKind) == (if d.ipc.stop then 0 else 1)
    ensures Count(t, StartKind) == 0 && Count(t, SendKind) == 0 && Count(t, CallKind) == 0
    ensures !d.ipc.stop ==> |t| > 0 && t[0] == WakeUp(d.ipc.pipeName)
  {
    var first := StopServer(d.ipc);
    var second := StopServer(first.m);
    CountAppend(first.trace, second.trace, JoinKind);
    CountAppend(first.trace, second.trace, WakeKind);
    CountAppend(first.trace, second.trace, StartKind);
    CountAppend(first.trace, second.trace, SendKind);
    CountAppend(first.trace, second.trace, CallKind);
    first.trace + second.trace
  }

  /** A primary instance, from construction to teardown, starts exactly one
      listener and joins exactly that one, forwards nothing and calls back
      locally at most once. */
  lemma PrimaryLifetime(scheme: WString, h: Handler, probe: WaitAnswer, args: seq<WString>, enc: Encoder)
    requires !IsServerRunning(probe)
    ensures var d := SetOnMessage(NewDeepLink(scheme), h);
      var r := RunOrForward(d, probe, args, enc);
      && r.Ok? && r.value.primary
      && var whole := r.value.trace + Dispose(r.value.link);
      && Count(whole, StartKind) == 1 && Count(whole, JoinKind) == 1
      && Count(whole, SendKind) == 0 && Count(whole, CallKind) <= 1
  {
  }

  /** A secondary instance, from construction to teardown, starts and joins
      nothing and never calls back; it sends once exactly when it has an
      argument. Its teardown still opens a pipe once (the wake-up of the
      never-started listener), and that pipe is the scheme's pipe, on which
      the primary listens. */
  lemma SecondaryLifetime(scheme: WString, h: Handler, probe: WaitAnswer, args: seq<WString>, enc: Encoder)
    requires IsServerRunning(probe)
    ensures var d := SetOnMessage(NewDeepLink(scheme), h);
      var r := RunOrForward(d, probe, args, enc);
      && r.Ok? && !r.value.primary
      && var whole := r.value.trace + Dispose(r.value.link);
      && Count(whole, StartKind) == 0 && Count(whole, JoinKind) == 0 && Count(whole, CallKind) == 0
      && Count(whole, SendKind) == (if |args| == 0 then 0 else 1)
      && Count(whole, WakeKind) == 1
      && Dispose(r.value.link)[0] == WakeUp(PipeName(scheme))
  {
  }

  /** The wake-up open of a secondary's teardown writes nothing, so when it
      reaches a listening primary the round produces no callback. */
  lemma SecondaryWakeUpDeliversNothing(h: Handler, round: Round)
    requires round.read.message == []
    ensures Iterate(h, round) == []
  {
  }

  /** A secondary's forwarded link reaches the primary of the same scheme:
      it is sent on the primary's pipe, and a round that reads it with
      nothing interfering calls the primary's callback once with exactly
      those bytes, provided they are non-empty, NUL-free and fit the buffer. */
  lemma ForwardReachesPrimary(
    scheme: WString, h: HandlerId, primaryProbe: WaitAnswer, primaryArgs: seq<WString>,
    other: Handler, secondaryProbe: WaitAnswer, args: seq<WString>, enc: Encoder, round: Round)
    requires !IsServerRunning(primaryProbe) && IsServerRunning(secondaryProbe)
    requires |args| > 0
    requires round.created && Connected(round.connect) && !round.stopRaised && round.read.ok
    requires round.read.message == enc(Last(args))
    requires 0 < |enc(Last(args))| <= ReadLimit && 0 !in enc(Last(args))
    ensures var p := RunOrForward(SetOnMessage(NewDeepLink(scheme), Some(h)), primaryProbe, primaryArgs, enc);
      var s := RunOrForward(SetOnMessage(NewDeepLink(scheme), other), secondaryProbe, args, enc);
      && p.Ok? && s.Ok?
      && s.value.trace == [Sent(p.value.link.ipc.pipeName, enc(Last(args)))]
      && Serve(p.value.link.ipc.stop, p.value.link.ipc.handler, [Accepted(round)]).trace
         == [Invoked(h, enc(Last(args)))]
  {
    MessageRoundTrip(h, round);
  }

  /** An empty last argument is forwarded as an empty message (`toString`
      returns the empty string for it), which, like the wake-up open, the
      primary never delivers. */
  lemma EmptyArgumentNeverDelivered(d: DeepLink, probe: WaitAnswer, args: seq<WString>, enc: Encoder, h: Handler, round: Round)
    requires enc([]) == []
    requires IsServerRunning(probe) && |args| > 0 && Last(args) == []
    requires round.read.message == RunOrForward(d, probe, args, enc).value.trace[0].msg
    ensures Iterate(h, round) == []
  {
    SecondaryWakeUpDeliversNothing(h, round);
  }
}

=== FILE: ctext.dfy ===
/** The two `std::string` operations the library relies on: building a string
    from a NUL-terminated `const char*` and `rfind(prefix, 0)`, which the
    coordinator uses as its starts-with test.
 */
module CText {
  import opened Basics

  /** The bytes of `s` before its first NUL: what `std::string(const char*)`
      copies out of a terminated buffer. */
  function CutAtNul(s: Bytes): (r: Bytes)
    ensures |r| <= |s| && r == s[..|r|]
    ensures 0 !in r
    ensures |r| < |s| ==> s[|r|] == 0
    decreases |s|
  {
    if s == [] || s[0] == 0 then [] else [s[0]] + CutAtNul(s[1..])
  }

  /** `CutAtNul` is the only prefix that is NUL-free and stops at a NUL or at
      the end: the characterisation above determines it. */
  lemma CutAtNulUnique(s: Bytes, k: nat)
    requires k <= |s|
    requires 0 !in s[..k]
    requires k < |s| ==> s[k] == 0
    ensures CutAtNul(s) == s[..k]
    decreases |s|
  {
  }

  /** The scan `std::string(const char*)` performs: the index of the first NUL
      of a buffer that holds one (the constructor's precondition). */
  method StrLen(buf: Bytes) returns (n: nat)
    requires 0 in buf
    ensures n < |buf| && buf[n] == 0
    ensures 0 !in buf[..n]
    ensures buf[..n] == CutAtNul(buf)
  {
    n := 0;
    while buf[n] != 0
      invariant n < |buf|
      invariant 0 !in buf[..n]
      invariant 0 in buf[n..]
      decreases |buf| - n
    {
      assert buf[n..] == [buf[n]] + buf[n + 1..];
      assert buf[..n + 1] == buf[..n] + [buf[n]];
      n := n + 1;
    }
    CutAtNulUnique(buf, n);
  }

  /** `p` occurs in `s` at position `i`. */
  predicate OccursAt<T(==)>(s: seq<T>, p: seq<T>, i: nat) {
    i + |p| <= |s| && s[i..i + |p|] == p
  }

  /** `std::basic_string::rfind(p, pos)`: the last position `i <= pos` at
      which `p` occurs in `s`, or `None` for `npos`. */
  function RFind<T(==)>(s: seq<T>, p: seq<T>, pos: nat): (r: Option<nat>)
    ensures r.Some? ==> r.value <= pos && OccursAt(s, p, r.value)
    ensures r.Some? ==> forall i: nat :: r.value < i <= pos ==> !OccursAt(s, p, i)
    ensures r.None? ==> forall i: nat :: i <= pos ==> !OccursAt(s, p, i)
  {
    if |p| > |s| then None
    else RFindDown(s, p, if pos < |s| - |p| then pos else |s| - |p|)
  }

  /** The downward search of `rfind`, starting at candidate position `i`. */
  function RFindDown<T(==)>(s: seq<T>, p: seq<T>, i: nat): (r: Option<nat>)
    requires i + |p| <= |s|
    ensures r.Some? ==> r.value <= i && OccursAt(s, p, r.value)
    ensures r.Some? ==> forall j: nat :: r.value < j <= i ==> !OccursAt(s, p, j)
    ensures r.None? ==> forall j: nat :: j <= i ==> !OccursAt(s, p, j)
    decreases i
  {
    if s[i..i + |p|] == p then Some(i)
    else if i == 0 then None
    else RFindDown(s, p, i - 1)
  }

  /** `s.rfind(p, 0) == 0` is exactly "s starts with p", the reading the
      coordinator gives it. */
  lemma RFindAtZeroIsStartsWith<T>(s: seq<T>, p: seq<T>)
    ensures RFind(s, p, 0) == Some(0) <==> StartsWith(s, p)
  {
  }
}

=== FILE: listener.dfy ===
/** The accept loop `serverLoop` of `NamedPipeIpcMechanism`
    (include/deeplink.hpp).

    Each round creates a pipe instance, waits for a client, reads once into a
    2048-byte zeroed buffer and hands the NUL-terminated contents to the
    callback. The operating system's answers for a round are an input record.
    The other thread's only influence, setting the stop flag, is either an
    event between rounds (`StopSet`) or a flag raised while the round waited
    for a client (`stopRaised`), which is what the wake-up open of
    `stopServer` produces. That a wake-up always reaches a waiting round is
    an assumption: if `stopServer` runs after the loop has tested the flag
    but before `CreateNamedPipeW` has created the instance, its open finds
    no pipe and the round then waits for a client that never comes.
 */
module Listener {
  import opened Basics
  import opened CText
  import opened NamedPipe

  /** `std::array<char, 2048> arrBuffer`. */
  const BufferSize: nat := 2048

  /** The `nNumberOfBytesToRead` of the single `ReadFile`: one byte is kept
      for the terminating NUL. */
  const ReadLimit: nat := BufferSize - 1

  /** What `ConnectNamedPipe` returned and, when it failed, `GetLastError()`. */
  datatype ConnectAnswer = ConnectAnswer(ok: bool, lastError: nat)

  /** The message the client wrote and whether `ReadFile` reported success.
      `ReadFile` places at most `ReadLimit` bytes of it in the buffer;
      whether it reports success for a longer message is the operating
      system's choice, hence a separate input. */
  datatype ReadAnswer = ReadAnswer(ok: bool, message: Bytes)

  /** The operating system's answers for one round of the loop. */
  datatype Round = Round(
    created: bool,          // `CreateNamedPipeW` returned a valid handle
    connect: ConnectAnswer,
    stopRaised: bool,       // the stop flag was set while this round waited
    read: ReadAnswer)

  /** A client is attached: the connect succeeded, or the client attached
      between creation and `ConnectNamedPipe` (`ERROR_PIPE_CONNECTED`). */
  predicate Connected(c: ConnectAnswer) {
    c.ok || c.lastError == ErrorPipeConnected
  }

  /** `dwBytesRead`: how much of the client's message lands in the buffer. */
  function BytesRead(message: Bytes): (n: nat)
    ensures n <= ReadLimit && n <= |message|
    ensures n == |message| || n == ReadLimit
    ensures n > 0 <==> |message| > 0
  {
    if |message| <= ReadLimit then |message| else ReadLimit
  }

  function Zeros(k: nat): (z: Bytes)
    ensures |z| == k
    ensures forall i :: 0 <= i < k ==> z[i] == 0
  {
    seq(k, _ => 0)
  }

  /** `arrBuffer` after the read and `arrBuffer[dwBytesRead] = '\0'`: the bytes
      read, then the zero fill of the `{}` initialiser. */
  function Filled(message: Bytes): (buf: Bytes)
    ensures |buf| == BufferSize
    ensures buf[..BytesRead(message)] == message[..BytesRead(message)]
    ensures buf[BytesRead(message)] == 0
  {
    var n := BytesRead(message);
    var buf := message[..n] + Zeros(BufferSize - n);
    assert buf[n] == Zeros(BufferSize - n)[0];
    buf
  }

  /** `std::string(arrBuffer.data())`: what the callback receives for a
      client message. */
  function Payload(message: Bytes): (p: Bytes)
    ensures |p| <= ReadLimit
    ensures 0 !in p
    ensures StartsWith(message, p)
    ensures |p| < |message| ==> message[|p|] == 0 || |p| == ReadLimit
  {
    var buf := Filled(message);
    var n := BytesRead(message);
    var p := CutAtNul(buf);
    assert |p| <= n;
    assert p == buf[..n][..|p|];
    p
  }

  /** The payload is the read bytes up to the first NUL, a reference
      definition that does not mention the buffer. */
  lemma PayloadIsCutOfRead(message: Bytes)
    ensures Payload(message) == CutAtNul(message[..BytesRead(message)])
  {
  }

  /** The payload equals the message exactly when the message fits the buffer
      and holds no NUL; otherwise it is a proper prefix. (Whether a callback
      runs at all is decided by `Iterate`: an empty message never reaches
      one.) */
  lemma PayloadFaithful(message: Bytes)
    ensures Payload(message) == message <==> |message| <= ReadLimit && 0 !in message
    ensures Payload(message) != message ==> |Payload(message)| < |message|
  {
  }

  /** The same payload computed the way the buffer is read: the scan for the
      terminating NUL, then the copy. */
  method ReadPayload(message: Bytes) returns (p: Bytes)
    ensures p == Payload(message)
  {
    var buf := Filled(message);
    var n := StrLen(buf);
    p := buf[..n];
  }

  /** One round of `serverLoop`. An invalid handle skips the round; otherwise
      the callback runs exactly when a client is attached, the stop flag is
      still clear, the read succeeds with at least one byte and a callback is
      set. */
  function Iterate(handler: Handler, r: Round): (t: seq<Effect>)
    ensures |t| <= 1
    ensures |t| == 1 <==>
      && r.created && Connected(r.connect) && !r.stopRaised
      && r.read.ok && |r.read.message| > 0 && handler.Some?
    ensures |t| == 1 ==> t[0] == Invoked(handler.value, Payload(r.read.message))
  {
    if !r.created then []
    else if !(Connected(r.connect) && !r.stopRaised) then []
    else if !(r.read.ok && BytesRead(r.read.message) > 0) then []
    else if handler.None? then []
    else [Invoked(handler.value, Payload(r.read.message))]
  }

  /** What the other thread can do to a running loop, in order. */
  datatype Event = StopSet | Accepted(round: Round)

  /** The loop's final stop flag, how many rounds it ran, and its callbacks. */
  datatype LoopRun = LoopRun(stop: bool, rounds: nat, trace: seq<Effect>)

  /** A callback the loop can produce: the registered handler, with a
      NUL-free payload that fits the buffer. */
  predicate Deliverable(handler: Handler, e: Effect) {
    e.Invoked? && handler == Some(e.callee) && |e.msg| <= ReadLimit && 0 !in e.msg
  }

  /** `while (!m_bStopFlag) { ... }` driven by `events`. Once the flag is
      seen set the loop has exited and later events have no effect. */
  function Loop(stop: bool, handler: Handler, events: seq<Event>): LoopRun
    decreases |events|
  {
    if stop || events == [] then LoopRun(stop, 0, [])
    else
      match events[0]
      case StopSet => LoopRun(true, 0, [])
      case Accepted(round) =>
        var rest := Loop(round.stopRaised, handler, events[1..]);
        LoopRun(rest.stop, rest.rounds + 1, Iterate(handler, round) + rest.trace)
  }

  /** A run of the loop: a set flag runs no round, and there is at most one
      callback per round and at most one round per event. */
  function Serve(stop: bool, handler: Handler, events: seq<Event>): (r: LoopRun)
    ensures stop ==> r == LoopRun(true, 0, [])
    ensures |r.trace| <= r.rounds <= |events|
  {
    LoopBounds(stop, handler, events);
    Loop(stop, handler, events)
  }

  /** Each round calls back at most once and consumes one event. */
  lemma {:induction false} LoopBounds(stop: bool, handler: Handler, events: seq<Event>)
    ensures var r := Loop(stop, handler, events);
      |r.trace| <= r.rounds <= |events|
    decreases |events|
  {
    if !stop && events != [] && events[0].Accepted? {
      LoopBounds(events[0].round.stopRaised, handler, events[1..]);
    }
  }

  /** Every callback the loop makes goes to the registered handler with a
      NUL-free payload of at most `ReadLimit` bytes. */
  lemma {:induction false} ServeDelivers(stop: bool, handler: Handler, events: seq<Event>)
    ensures forall e :: e in Serve(stop, handler, events).trace ==> Deliverable(handler, e)
    decreases |events|
  {
    if !stop && events != [] && events[0].Accepted? {
      var round := events[0].round;
      var here := Iterate(handler, round);
      var rest := Serve(round.stopRaised, handler, events[1..]);
      ServeDelivers(round.stopRaised, handler, events[1..]);
      assert Serve(stop, handler, events).trace == here + rest.trace;
      forall e | e in here + rest.trace
        ensures Deliverable(handler, e)
      {
        if e in here {
          assert e == here[0];
        }
      }
    }
  }

  /** Running the loop over `a + b` is running it over `a`, then over `b`
      from the flag `a` left behind: callbacks come out in the order the
      connections were read. */
  lemma {:induction false} ServeAppend(stop: bool, handler: Handler, a: seq<Event>, b: seq<Event>)
    ensures var ra := Serve(stop, handler, a);
      var rb := Serve(ra.stop, handler, b);
      Serve(stop, handler, a + b) == LoopRun(rb.stop, ra.rounds + rb.rounds, ra.trace + rb.trace)
    decreases |a|, 1
  {
    if stop {
    } else if a == [] {
      assert a + b == b;
    } else if a[0].StopSet? {
      assert (a + b)[0] == a[0];
    } else {
      ServeAppendAccepted(handler, a[0].round, a[1..], b);
      assert a == [a[0]] + a[1..];
    }
  }

  /** The inductive step of `ServeAppend`: an accepted round in front. */
  lemma {:induction false} ServeAppendAccepted(handler: Handler, round: Round, a: seq<Event>, b: seq<Event>)
    ensures var ra := Serve(false, handler, [Accepted(round)] + a);
      var rb := Serve(ra.stop, handler, b);
      Serve(false, handler, [Accepted(round)] + a + b) == LoopRun(rb.stop, ra.rounds + rb.rounds, ra.trace + rb.trace)
    decreases |a| + 1, 0
  {
    var here := Iterate(handler, round);
    var tail := Serve(round.stopRaised, handler, a);
    var rb := Serve(tail.stop, handler, b);
    ServeStep(handler, round, a);
    ServeStep(handler, round, a + b);
    assert [Accepted(round)] + a + b == [Accepted(round)] + (a + b);
    ServeAppend(round.stopRaised, handler, a, b);
    assert here + (tail.trace + rb.trace) == (here + tail.trace) + rb.trace;
  }

  /** One accepted round followed by the rest of the loop. */
  lemma ServeStep(handler: Handler, round: Round, rest: seq<Event>)
    ensures var tail := Serve(round.stopRaised, handler, rest);
      Serve(false, handler, [Accepted(round)] + rest)
      == LoopRun(tail.stop, tail.rounds + 1, Iterate(handler, round) + tail.trace)
  {
  }

  /** No callback after the stop flag is set: events after a `StopSet`
      contribute nothing. */
  lemma NoCallbackAfterStop(handler: Handler, before: seq<Event>, after: seq<Event>)
    ensures Serve(false, handler, before + [StopSet] + after).trace == Serve(false, handler, before).trace
  {
    ServeAppend(false, handler, before, [StopSet] + after);
    assert before + [StopSet] + after == before + ([StopSet] + after);
  }

  /** A round whose `CreateNamedPipeW` failed does nothing but count as a
      round: the loop goes straight back to testing the flag. */
  lemma FailedCreationRetests(handler: Handler, round: Round, after: seq<Event>)
    requires !round.created
    ensures var rest := Serve(round.stopRaised, handler, after);
      Serve(false, handler, [Accepted(round)] + after) == rest.(rounds := rest.rounds + 1)
  {
    ServeStep(handler, round, after);
  }

  /** The round in which `stopServer`'s wake-up arrives is the last one and
      delivers nothing. */
  lemma WakeUpEndsLoop(handler: Handler, round: Round, after: seq<Event>)
    requires round.stopRaised
    ensures Serve(false, handler, [Accepted(round)] + after) == LoopRun(true, 1, [])
  {
    ServeStep(handler, round, after);
  }

  /** A client that writes a non-empty, NUL-free message of at most
      `ReadLimit` bytes to a listening server, with nothing interfering,
      reaches the callback exactly once and unchanged. */
  lemma MessageRoundTrip(h: HandlerId, round: Round)
    requires round.created && Connected(round.connect) && !round.stopRaised && round.read.ok
    requires |round.read.message| > 0
    requires |round.read.message| <= ReadLimit && 0 !in round.read.message
    ensures Serve(false, Some(h), [Accepted(round)]) == LoopRun(false, 1, [Invoked(h, round.read.message)])
  {
    PayloadFaithful(round.read.message);
    ServeStep(Some(h), round, []);
    assert [Accepted(round)] + [] == [Accepted(round)];
  }
}

=== FILE: named_pipe.dfy ===
/** `ipc::NamedPipeIpcMechanism` (include/deeplink.hpp): the pipe name, the
    probe, the one-shot send and the stop-flag lifecycle of `startServer` and
    `stopServer`.

    The mechanism is a value: every operation returns the new state together
    with the trace of effects it had on the outside world. The listener thread
    is reduced to whether `m_tServerThread` is joinable; its loop is modelled
    in module `Listener`.
 */
module NamedPipe {
  import opened Basics

  // ----- Win32 status codes the mechanism inspects -----

  const ErrorPipeBusy: nat := 231
  const ErrorPipeConnected: nat := 535
  const ErrorSemTimeout: nat := 121

  // ----- Pipe name -----

  /** `\\.\pipe\`, the namespace of local named pipes. */
  const PipePrefix: WString := Widen("\\\\.\\pipe\\")

  /** The pipe a mechanism created for identifier `id` listens on and connects to. */
  function PipeName(id: WString): (name: WString)
    ensures StartsWith(name, PipePrefix)
    ensures |name| == |PipePrefix| + |id|
    ensures name[|PipePrefix|..] == id
  {
    PipePrefix + id
  }

  /** The identifier a pipe name was derived from, if it is a local pipe name. */
  function PipeId(name: WString): (id: Option<WString>)
    ensures id.Some? <==> StartsWith(name, PipePrefix)
  {
    StripPrefix(name, PipePrefix)
  }

  /** The identifier can be read back from the pipe name, and every local pipe
      name is the name of exactly the identifier read back from it. */
  lemma PipeNameRoundTrip(id: WString, name: WString)
    ensures PipeId(PipeName(id)) == Some(id)
    ensures PipeId(name) == Some(id) <==> name == PipeName(id)
  {
  }

  /** Distinct identifiers give distinct pipe-name strings. (The operating
      system compares pipe names without regard to case and reads them only
      up to the first NUL, so this is a fact about the strings.) */
  lemma PipeNameInjective(a: WString, b: WString)
    ensures PipeName(a) == PipeName(b) <==> a == b
  {
  }

  // ----- Effects -----

  /** A registered `std::function<void(const std::string&)>`, named by an
      opaque identity; `None` is an empty function. */
  type HandlerId = nat
  type Handler = Option<HandlerId>

  datatype Effect =
    | Sent(pipe: WString, msg: Bytes)          // one open-write-close attempt on `pipe`
    | ServerStarted(pipe: WString, handler: Handler)  // the listener thread is launched
    | WakeUp(pipe: WString)                    // the self-directed open that unblocks the accept
    | Joined                                   // the listener thread is joined
    | Invoked(callee: HandlerId, msg: Bytes)   // the callback runs with `msg`

  datatype Kind = SendKind | StartKind | WakeKind | JoinKind | CallKind

  function KindOf(e: Effect): Kind {
    match e
    case Sent(_, _) => SendKind
    case ServerStarted(_, _) => StartKind
    case WakeUp(_) => WakeKind
    case Joined => JoinKind
    case Invoked(_, _) => CallKind
  }

  /** Number of effects of kind `k` in trace `t`. */
  function Count(t: seq<Effect>, k: Kind): nat
    decreases |t|
  {
    if t == [] then 0 else (if KindOf(t[0]) == k then 1 else 0) + Count(t[1..], k)
  }

  lemma {:induction false} CountAppend(a: seq<Effect>, b: seq<Effect>, k: Kind)
    ensures Count(a + b, k) == Count(a, k) + Count(b, k)
    decreases |a|
  {
    if a == [] {
      assert a + b == b;
    } else {
      assert (a + b)[1..] == a[1..] + b;
      CountAppend(a[1..], b, k);
    }
  }

  // ----- Probe -----

  /** What `WaitNamedPipeW(name, 0)` returned and, when it failed, `GetLastError()`. */
  datatype WaitAnswer = WaitAnswer(ok: bool, lastError: nat)

  /** `isServerRunning`: the pipe is occupied when the wait succeeds or the
      failure is `ERROR_PIPE_BUSY`; every other failure reads as "no server". */
  function IsServerRunning(a: WaitAnswer): (running: bool)
    ensures !a.ok ==> (running <==> a.lastError == ErrorPipeBusy)
    ensures a.ok ==> running
  {
    a.ok || a.lastError == ErrorPipeBusy
  }

  /** Only `ERROR_PIPE_BUSY` reads as a running server after a failed wait: a
      timed-out wait (`ERROR_SEM_TIMEOUT`) and a missing pipe
      (`ERROR_FILE_NOT_FOUND`) both read as "no server", and so the caller
      goes on to start its own listener. */
  lemma ProbeFailuresReadAsNoServer(lastError: nat)
    ensures IsServerRunning(WaitAnswer(false, lastError)) <==> lastError == ErrorPipeBusy
    ensures !IsServerRunning(WaitAnswer(false, ErrorSemTimeout))
    ensures !IsServerRunning(WaitAnswer(false, ErrorFileNotFound))
    ensures IsServerRunning(WaitAnswer(false, ErrorPipeBusy))
  {
  }

  // ----- Mechanism state -----

  /** The fields of `NamedPipeIpcMechanism`: `m_wsPipeName`, `m_fOnMessage`,
      whether `m_tServerThread` is joinable, and `m_bStopFlag`. */
  datatype Mechanism = Mechanism(pipeName: WString, handler: Handler, joinable: bool, stop: bool)

  /** The reachable states: a joinable listener thread always has a clear
      stop flag, because `stopServer` joins in the call that sets it. */
  predicate Valid(m: Mechanism) {
    m.joinable ==> !m.stop
  }

  /** The constructor: the pipe name, an empty callback, no thread, a clear flag. */
  function NewMechanism(id: WString): (m: Mechanism)
    ensures PipeId(m.pipeName) == Some(id)
    ensures m.handler.None? && !m.joinable && !m.stop
    ensures Valid(m)
  {
    PipeNameRoundTrip(id, PipeName(id));
    Mechanism(PipeName(id), None, false, false)
  }

  /** `sendMessage`: one attempt to open the pipe and write the whole message.
      Whether the open succeeds is not observable by the caller, so the effect
      is the attempt. */
  function SendMessage(m: Mechanism, msg: Bytes): (t: seq<Effect>)
    ensures Count(t, SendKind) == 1 && |t| == 1
    ensures t[0].Sent? && t[0].pipe == m.pipeName && t[0].msg == msg
  {
    [Sent(m.pipeName, msg)]
  }

  /** The process-ending fault of assigning a new `std::thread` over a
      joinable one (`std::terminate`). */
  datatype Fault = Terminate

  datatype Step = Step(m: Mechanism, trace: seq<Effect>)

  /** `startServer`: store the callback, clear the stop flag, launch the
      listener thread. Launching while a listener is still joinable ends the
      process. */
  function StartServer(m: Mechanism, h: Handler): (r: Result<Step, Fault>)
    ensures r.Ok? <==> !m.joinable
    ensures r.Ok? ==> var s := r.value;
      && s.m.pipeName == m.pipeName
      && s.m.handler == h
      && s.m.joinable && !s.m.stop
      && Valid(s.m)
      && Count(s.trace, StartKind) == 1 && |s.trace| == 1
      && s.trace[0] == ServerStarted(m.pipeName, h)
  {
    if m.joinable then Err(Terminate)
    else Ok(Step(m.(handler := h, stop := false, joinable := true), [ServerStarted(m.pipeName, h)]))
  }

  /** `stopServer`: `m_bStopFlag.exchange(true)`; only the call that finds the
      flag clear opens the pipe once to unblock the accept and joins the
      thread if it is joinable. */
  function StopServer(m: Mechanism): (r: Step)
    ensures r.m.stop
    ensures Valid(m) ==> !r.m.joinable && Valid(r.m)
    ensures r.m.pipeName == m.pipeName && r.m.handler == m.handler
    ensures r.trace != [] <==> !m.stop
    ensures !m.stop ==> r.trace[0] == WakeUp(m.pipeName)
    ensures m.stop ==> r.m == m
    ensures Count(r.trace, WakeKind) == (if m.stop then 0 else 1)
    ensures Count(r.trace, JoinKind) == (if m.joinable && !m.stop then 1 else 0)
    ensures Count(r.trace, StartKind) == 0 && Count(r.trace, CallKind) == 0 && Count(r.trace, SendKind) == 0
  {
    if m.stop then Step(m, [])
    else
      var t := if m.joinable then [WakeUp(m.pipeName), Joined] else [WakeUp(m.pipeName)];
      assert t[1..] == (if m.joinable then [Joined] else []);
      assert m.joinable ==> t[1..][1..] == [];
      assert Count(t[1..], SendKind) == 0;
      Step(m.(stop := true, joinable := false), t)
  }

  /** A second `stopServer` changes nothing and has no effect: this is what
      keeps the destructor of `DeepLink` and the destructor of the mechanism
      from joining twice. */
  lemma StopServerIdempotent(m: Mechanism)
    ensures StopServer(StopServer(m).m) == Step(StopServer(m).m, [])
  {
  }

  /** `startServer` re-arms the flag: after a stop, a new start followed by a
      stop joins the new thread again. */
  lemma StartAfterStopRearms(m: Mechanism, h: Handler)
    requires Valid(m)
    ensures var s := StopServer(m).m;
      StartServer(s, h).Ok? && Count(StopServer(StartServer(s, h).value.m).trace, JoinKind) == 1
  {
  }

  // ----- A sequence of start/stop calls -----

  datatype Call = Start(h: Handler) | Stop

  /** The effect of a sequence of `startServer`/`stopServer` calls made on the
      owning thread, stopping at the first fault. */
  function Replay(m: Mechanism, calls: seq<Call>): Result<Step, Fault>
    decreases |calls|
  {
    if calls == [] then Ok(Step(m, []))
    else
      var first :=
        match calls[0]
        case Start(h) => StartServer(m, h)
        case Stop => Ok(StopServer(m));
      match first
      case Err(f) => Err(f)
      case Ok(s) =>
        match Replay(s.m, calls[1..])
        case Err(f) => Err(f)
        case Ok(rest) => Ok(Step(rest.m, s.trace + rest.trace))
  }

  /** At most one listener thread is ever live: every thread launched in a run
      of calls is either joined within it or is the one thread still joinable at
      its end, and reachable states stay reachable. */
  lemma {:induction false} AtMostOneListener(m: Mechanism, calls: seq<Call>)
    requires Valid(m)
    ensures Replay(m, calls).Ok? ==>
      var s := Replay(m, calls).value;
      && Valid(s.m)
      && (if m.joinable then 1 else 0) + Count(s.trace, StartKind)
         == Count(s.trace, JoinKind) + (if s.m.joinable then 1 else 0)
    decreases |calls|
  {
    if calls != [] {
      var first :=
        match calls[0]
        case Start(h) => StartServer(m, h)
        case Stop => Ok(StopServer(m));
      if first.Ok? {
        var s := first.value;
        AtMostOneListener(s.m, calls[1..]);
        if Replay(s.m, calls[1..]).Ok? {
          var rest := Replay(s.m, calls[1..]).value;
          CountAppend(s.trace, rest.trace, StartKind);
          CountAppend(s.trace, rest.trace, JoinKind);
        }
      }
    }
  }
}

=== FILE: registry.dfy ===
/** Scheme registration of `DeepLink` (include/deeplink.hpp): the registry
    strings `registerScheme` derives from the scheme and the executable path,
    the sequence of registry calls it makes, and the status rule of
    `unregisterScheme`.

    The registry itself is not modelled: each call's status is the answer of
    a parameter `os`, and the executable path is an input.
 */
module Registry {
  import opened Basics

  // ----- Derived strings -----

  /** `Software\Classes\`, under `HKEY_CURRENT_USER`. */
  const ClassesRoot: WString := Widen("Software\\Classes\\")

  /** The separator between a key and its sub-key. */
  const KeySeparator: WString := Widen("\\")

  const UrlPrefix: WString := Widen("URL:")
  const Quote: WString := Widen("\"")
  const CommandTail: WString := Widen("\" \"%1\"")
  const IconTail: WString := Widen(",0")

  /** The key of the scheme; `registerScheme` and `unregisterScheme` both use it. */
  function RegistryPath(scheme: WString): (path: WString)
    ensures StartsWith(path, ClassesRoot) && path[|ClassesRoot|..] == scheme
  {
    ClassesRoot + scheme
  }

  /** The scheme a key under `Software\Classes\` belongs to. */
  function SchemeOfPath(path: WString): (scheme: Option<WString>)
    ensures scheme.Some? <==> StartsWith(path, ClassesRoot)
  {
    StripPrefix(path, ClassesRoot)
  }

  /** The default value of the scheme key: `URL:` and the scheme. */
  function UrlProtocolValue(scheme: WString): (v: WString)
    ensures StartsWith(v, UrlPrefix) && v[|UrlPrefix|..] == scheme
  {
    UrlPrefix + scheme
  }

  /** The `shell\open\command` value: the quoted executable, then `"%1"`. */
  function CommandValue(exe: WString): (v: WString)
    ensures |v| == |Quote| + |exe| + |CommandTail|
    ensures StartsWith(v, Quote) && v[|Quote|..|Quote| + |exe|] == exe && v[|Quote| + |exe|..] == CommandTail
  {
    Quote + exe + CommandTail
  }

  /** The `DefaultIcon` value: the first icon of the executable. */
  function IconValue(exe: WString): (v: WString)
    ensures |v| == |exe| + |IconTail|
    ensures StartsWith(v, exe) && v[|exe|..] == IconTail
  {
    exe + IconTail
  }

  /** The scheme named by a protocol value. */
  function SchemeOfProtocol(v: WString): Option<WString> {
    StripPrefix(v, UrlPrefix)
  }

  /** The executable a command value launches. */
  function ExeOfCommand(v: WString): Option<WString> {
    match StripPrefix(v, Quote)
    case None => None
    case Some(rest) => StripSuffix(rest, CommandTail)
  }

  /** The executable an icon value points into. */
  function ExeOfIcon(v: WString): Option<WString> {
    StripSuffix(v, IconTail)
  }

  /** Each derived string determines what it was derived from: the scheme
      can be read back from its key and protocol value, the executable from
      the command and icon values. */
  lemma DerivedStringsRoundTrip(scheme: WString, exe: WString)
    ensures SchemeOfPath(RegistryPath(scheme)) == Some(scheme)
    ensures SchemeOfProtocol(UrlProtocolValue(scheme)) == Some(scheme)
    ensures ExeOfCommand(CommandValue(exe)) == Some(exe)
    ensures ExeOfIcon(IconValue(exe)) == Some(exe)
  {
    StripPrefixOfConcat(ClassesRoot, scheme);
    StripPrefixOfConcat(UrlPrefix, scheme);
    assert Quote + exe + CommandTail == Quote + (exe + CommandTail);
    StripPrefixOfConcat(Quote, exe + CommandTail);
    StripSuffixOfConcat(exe, CommandTail);
    StripSuffixOfConcat(exe, IconTail);
  }

  /** A key strictly inside the tree rooted at `root`, or `root` itself. */
  predicate InTree(key: WString, root: WString) {
    key == root || StartsWith(key, root + KeySeparator)
  }

  function SubKey(key: WString, name: WString): (sub: WString)
    ensures InTree(sub, key)
  {
    assert (key + KeySeparator + name)[..|key + KeySeparator|] == key + KeySeparator;
    key + KeySeparator + name
  }

  // ----- The calls of registerScheme -----

  /** One registry call: `RegCreateKeyExW` of a key, or `RegSetValueExW` of
      a value (`None` is the key's default value). */
  datatype RegCall =
    | CreateKey(key: WString)
    | SetValue(key: WString, name: Option<WString>, data: WString)

  /** A value is only ever written to a key an earlier call created. */
  predicate WritesCreatedKeys(calls: seq<RegCall>) {
    forall i :: 0 <= i < |calls| && calls[i].SetValue? ==>
      exists j :: 0 <= j < i && calls[j] == CreateKey(calls[i].key)
  }

  /** The keys a run of calls creates. */
  function CreatedKeys(calls: seq<RegCall>): set<WString> {
    set c | c in calls && c.CreateKey? :: c.key
  }

  /** The values a run of calls writes. */
  function WrittenValues(calls: seq<RegCall>): set<RegCall> {
    set c | c in calls && c.SetValue?
  }

  /** The seven calls of `registerScheme`, in order: the scheme's key with
      its `URL:` default value and the empty `URL Protocol` value that marks
      it as a URL handler, then `DefaultIcon` with the icon value, then
      `shell\open\command` with the command value. */
  function RegisterCalls(scheme: WString, exe: WString): (calls: seq<RegCall>)
    ensures |calls| == 7
    ensures calls[0] == CreateKey(RegistryPath(scheme))
    ensures WritesCreatedKeys(calls)
    ensures var root := RegistryPath(scheme);
      CreatedKeys(calls) == {root, SubKey(root, Widen("DefaultIcon")), SubKey(root, Widen("shell\\open\\command"))}
    ensures var root := RegistryPath(scheme);
      WrittenValues(calls) == {
        SetValue(root, None, UrlProtocolValue(scheme)),
        SetValue(root, Some(Widen("URL Protocol")), []),
        SetValue(SubKey(root, Widen("DefaultIcon")), None, IconValue(exe)),
        SetValue(SubKey(root, Widen("shell\\open\\command")), None, CommandValue(exe)) }
  {
    var root := RegistryPath(scheme);
    var icon := SubKey(root, Widen("DefaultIcon"));
    var command := SubKey(root, Widen("shell\\open\\command"));
    var calls :=
      [ CreateKey(root),
        SetValue(root, None, UrlProtocolValue(scheme)),
        SetValue(root, Some(Widen("URL Protocol")), []),
        CreateKey(icon),
        SetValue(icon, None, IconValue(exe)),
        CreateKey(command),
        SetValue(command, None, CommandValue(exe)) ];
    assert calls[0] == CreateKey(calls[1].key) == CreateKey(calls[2].key);
    assert calls[3] == CreateKey(calls[4].key);
    assert calls[5] == CreateKey(calls[6].key);
    calls
  }

  /** Every key `registerScheme` creates or writes lies in the tree
      `unregisterScheme` deletes, because both derive the same key. */
  lemma RegistrationInsideDeletedTree(scheme: WString, exe: WString)
    ensures forall c :: c in RegisterCalls(scheme, exe) ==> InTree(c.key, RegistryPath(scheme))
  {
  }

  /** The registration writes the protocol, icon and command values derived
      above, so the registry names the scheme and the executable. */
  lemma RegistrationWritesDerivedValues(scheme: WString, exe: WString)
    ensures var calls := RegisterCalls(scheme, exe);
      && SchemeOfProtocol(calls[1].data) == Some(scheme)
      && ExeOfIcon(calls[4].data) == Some(exe)
      && ExeOfCommand(calls[6].data) == Some(exe)
  {
    DerivedStringsRoundTrip(scheme, exe);
  }

  /** The calls made and, if one failed, its status. */
  datatype Registration = Registration(performed: seq<RegCall>, failure: Option<nat>)

  /** Make `calls` in order, stopping at the first status other than
      `ERROR_SUCCESS` (where `registerScheme` throws). */
  function Perform(calls: seq<RegCall>, os: RegCall -> nat): (r: Registration)
    ensures StartsWith(calls, r.performed)
    ensures r.failure.None? ==> r.performed == calls
    ensures r.failure.None? <==> forall i :: 0 <= i < |calls| ==> os(calls[i]) == ErrorSuccess
    ensures r.failure.Some? ==>
      && |r.performed| > 0
      && r.failure.value == os(r.performed[|r.performed| - 1]) != ErrorSuccess
      && forall i :: 0 <= i < |r.performed| - 1 ==> os(r.performed[i]) == ErrorSuccess
    decreases |calls|
  {
    if calls == [] then Registration([], None)
    else if os(calls[0]) != ErrorSuccess then Registration([calls[0]], Some(os(calls[0])))
    else
      var rest := Perform(calls[1..], os);
      assert calls == [calls[0]] + calls[1..];
      Registration([calls[0]] + rest.performed, rest.failure)
  }

  /** `registerScheme` for the executable path `exe`. */
  function RegisterScheme(scheme: WString, exe: WString, os: RegCall -> nat): (r: Registration)
    ensures StartsWith(RegisterCalls(scheme, exe), r.performed)
    ensures r.failure.None? <==> forall c :: c in RegisterCalls(scheme, exe) ==> os(c) == ErrorSuccess
    ensures r.failure.None? ==> r.performed == RegisterCalls(scheme, exe)
    ensures r.failure.Some? ==>
      && |r.performed| > 0
      && r.failure.value == os(r.performed[|r.performed| - 1]) != ErrorSuccess
      && forall i :: 0 <= i < |r.performed| - 1 ==> os(r.performed[i]) == ErrorSuccess
    ensures forall c :: c in r.performed ==> InTree(c.key, RegistryPath(scheme))
  {
    var calls := RegisterCalls(scheme, exe);
    RegistrationInsideDeletedTree(scheme, exe);
    PerformWithin(calls, os);
    Perform(calls, os)
  }

  /** `Perform` makes only calls from its list, and succeeds exactly when
      every call on the list does. */
  lemma PerformWithin(calls: seq<RegCall>, os: RegCall -> nat)
    ensures forall c :: c in Perform(calls, os).performed ==> c in calls
    ensures Perform(calls, os).failure.None? <==> forall c :: c in calls ==> os(c) == ErrorSuccess
  {
    var r := Perform(calls, os);
    forall c | c in r.performed
      ensures c in calls
    {
      var i :| 0 <= i < |r.performed| && r.performed[i] == c;
      assert calls[i] == c;
    }
  }

  /** What `unregisterScheme` deletes and whether it returns normally. */
  datatype Deletion = Deletion(tree: WString, ok: bool)

  /** `unregisterScheme`: delete the scheme's tree; a missing tree counts as
      success, every other failure status is an error. */
  function UnregisterScheme(scheme: WString, status: nat): (r: Deletion)
    ensures SchemeOfPath(r.tree) == Some(scheme)
    ensures r.ok <==> status in {ErrorSuccess, ErrorFileNotFound}
  {
    StripPrefixOfConcat(ClassesRoot, scheme);
    Deletion(RegistryPath(scheme), status == ErrorSuccess || status == ErrorFileNotFound)
  }

  // ----- unregisterScheme against the keys of the registry -----

  /** The keys present under `HKEY_CURRENT_USER`; values are not tracked. */
  type Hive = set<WString>

  /** The keys left after a call and the status it answered. */
  datatype TreeDeletion = TreeDeletion(hive: Hive, status: nat)

  /** The registry never holds a key without the keys above it. */
  ghost predicate ParentsPresent(hive: Hive) {
    forall k, p :: k in hive && InTree(k, p) ==> p in hive
  }

  /** A key below a key of the tree rooted at `root` is itself in that tree. */
  lemma InTreeTransitive(k: WString, p: WString, root: WString)
    requires InTree(k, p) && InTree(p, root)
    ensures InTree(k, root)
  {
  }

  /** `RegDeleteTreeW(HKEY_CURRENT_USER, root)` on a registry that grants
      access: a present `root` is removed with every key below it
      (`ERROR_SUCCESS`); a missing one leaves everything as it is
      (`ERROR_FILE_NOT_FOUND`). Either way no key loses its parent. */
  function DeleteTree(hive: Hive, root: WString): (r: TreeDeletion)
    ensures r.status == (if root in hive then ErrorSuccess else ErrorFileNotFound)
    ensures root in hive ==> forall k :: k in r.hive <==> k in hive && !InTree(k, root)
    ensures root !in hive ==> r.hive == hive
    ensures root !in r.hive
    ensures ParentsPresent(hive) ==> ParentsPresent(r.hive)
  {
    if root in hive then
      var left := set k | k in hive && !InTree(k, root);
      assert InTree(root, root);
      forall k, p | k in left && InTree(k, p) && ParentsPresent(hive)
        ensures p in left
      {
        if InTree(p, root) {
          InTreeTransitive(k, p, root);
        }
      }
      TreeDeletion(left, ErrorSuccess)
    else TreeDeletion(hive, ErrorFileNotFound)
  }

  /** The keys left after `unregisterScheme` and whether it returned normally. */
  datatype Unregistration = Unregistration(hive: Hive, ok: bool)

  /** `unregisterScheme` run against `hive`: the keys left and whether it
      returned normally. With every parent present, exactly the scheme's
      tree is gone. */
  function Unregister(hive: Hive, scheme: WString): (r: Unregistration)
    ensures RegistryPath(scheme) !in r.hive
    ensures ParentsPresent(hive) ==>
      && ParentsPresent(r.hive)
      && forall k :: k in r.hive <==> k in hive && !InTree(k, RegistryPath(scheme))
  {
    var del := DeleteTree(hive, RegistryPath(scheme));
    Unregistration(del.hive, UnregisterScheme(scheme, del.status).ok)
  }

  /** Unregistering succeeds whether or not the scheme was registered, and a
      second unregistration finds the tree gone: it succeeds too, through the
      `ERROR_FILE_NOT_FOUND` case, and removes nothing more. */
  lemma UnregisterIdempotent(hive: Hive, scheme: WString)
    ensures Unregister(hive, scheme).ok
    ensures var once := Unregister(hive, scheme).hive;
      && DeleteTree(once, RegistryPath(scheme)).status == ErrorFileNotFound
      && Unregister(once, scheme) == Unregistration(once, true)
  {
  }

  /** After unregistering, no key a registration creates or writes is left. */
  lemma UnregisterRemovesRegistration(hive: Hive, scheme: WString, exe: WString)
    requires ParentsPresent(hive)
    ensures forall c :: c in RegisterCalls(scheme, exe) ==> c.key !in Unregister(hive, scheme).hive
  {
    RegistrationInsideDeletedTree(scheme, exe);
  }
}

=== FILE: scenarios.dfy ===
/** Three example launches, using the scheme `myapp` from
    example/windows.cpp, stated over the model. The encoder is
    only assumed to convert the ASCII strings involved byte for byte, as
    UTF-8 does.
 */
module Scenarios {
  import opened Basics
  import opened NamedPipe
  import opened Listener
  import opened Coordinator

  const Scheme: WString := Widen("myapp")

  /** UTF-8 agrees with the byte-per-character reading on ASCII. */
  predicate EncodesAscii(enc: Encoder, s: string) {
    enc(Widen(s)) == Narrow(s)
  }

  /** The launch link of a process started from `myapp://open?id=42` with no
      primary running is delivered to its own callback, once, bypassing the
      pipe; the listener is left running. */
  lemma OwnLinkDeliveredLocally(h: HandlerId, probe: WaitAnswer, enc: Encoder)
    requires !IsServerRunning(probe)
    requires EncodesAscii(enc, "myapp") && EncodesAscii(enc, "myapp://open?id=42")
    ensures var d := SetOnMessage(NewDeepLink(Scheme), Some(h));
      var r := RunOrForward(d, probe, [Widen("myapp://open?id=42")], enc);
      && r.Ok? && r.value.primary
      && r.value.link.ipc.joinable && !r.value.link.ipc.stop
      && r.value.trace == [ServerStarted(d.ipc.pipeName, Some(h)), Invoked(h, Narrow("myapp://open?id=42"))]
  {
  }

  /** With a primary already running, a launch from `myapp://open?id=7`
      returns false after one send of the link on the scheme's pipe, and the
      primary's callback receives it once, unchanged. */
  lemma LinkForwardedToPrimary(
    h: HandlerId, other: Handler, primaryProbe: WaitAnswer, secondaryProbe: WaitAnswer,
    enc: Encoder, round: Round)
    requires !IsServerRunning(primaryProbe) && IsServerRunning(secondaryProbe)
    requires EncodesAscii(enc, "myapp://open?id=7")
    requires round.created && Connected(round.connect) && !round.stopRaised && round.read.ok
    requires round.read.message == Narrow("myapp://open?id=7")
    ensures var p := RunOrForward(SetOnMessage(NewDeepLink(Scheme), Some(h)), primaryProbe, [], enc);
      var s := RunOrForward(SetOnMessage(NewDeepLink(Scheme), other), secondaryProbe, [Widen("myapp://open?id=7")], enc);
      && p.Ok? && s.Ok? && !s.value.primary
      && s.value.trace == [Sent(PipeName(Scheme), Narrow("myapp://open?id=7"))]
      && Serve(p.value.link.ipc.stop, p.value.link.ipc.handler, [Accepted(round)]).trace
         == [Invoked(h, Narrow("myapp://open?id=7"))]
  {
    var msg := Narrow("myapp://open?id=7");
    assert forall i :: 0 <= i < |msg| ==> msg[i] != 0;
    ForwardReachesPrimary(Scheme, h, primaryProbe, [], other, secondaryProbe, [Widen("myapp://open?id=7")], enc, round);
  }

  /** A launch with no arguments and no primary running becomes primary with
      its listener running, and calls nothing back. */
  lemma EmptyLaunchBecomesPrimary(h: Handler, probe: WaitAnswer, enc: Encoder)
    requires !IsServerRunning(probe)
    ensures var d := SetOnMessage(NewDeepLink(Scheme), h);
      var r := RunOrForward(d, probe, [], enc);
      && r.Ok? && r.value.primary
      && r.value.link.ipc.joinable && !r.value.link.ipc.stop
      && r.value.trace == [ServerStarted(d.ipc.pipeName, h)]
  {
  }
}
